=== FILE: README.md ===
# CV purchase flow: a verified model

This project models, in Dafny, the three pieces of the CV-building web
product that hold state-transition logic:

- the **REST back end** (`server/server.js`): a user collection keyed by id
  and four handlers — create a user, upload a payment receipt, verify a
  payment, download the purchased CV template — plus the root greeting;
- the **CV builder wizard** (`frontend/src/components/CVBuilder.js`): the
  form-field update with its CV-model derivation, and the three-step submit
  machine whose payment step depends on the card library and the charge
  endpoint;
- the **chat widget** (`frontend/src/components/ChatBot.js`): the trimmed
  submit guard, the message append and input clear, and the delayed canned
  bot reply.

Everything is a pure function over immutable datatypes. Outside answers
(the card library, the charge endpoint, the uploaded file, which template
files exist, the id generator) arrive as parameters.

Modules:

- `JsText` (`jstext.dfy`): optional JavaScript strings, template-literal
  printing of `undefined`, and `String.prototype.trim` with the ECMAScript
  white-space set.
- `Server` (`server.dfy`): `Store`, `User`, the handlers and `Handle`, the
  router over `Request`.
- `CvBuilder` (`cvbuilder.dfy`): `Wizard`, `HandleChange`, `HandleSubmit` and
  runs of events.
- `ChatBot` (`chatbot.dfy`): `Chat`, `HandleSubmit`, `BotReply` and runs of
  events.

Behaviours of the code that the model keeps as written:

- Uploading a receipt moves a `completed` payment back to
  `pending_verification`, so the user loses the download
  (`Server.ReceiptRevokesDownload`).
- The payment-verification route, though commented as an admin route,
  checks nothing about the caller: no `Request` carries a credential, and
  `Server.VerifyPayment` succeeds for every known id.
- Creating a user never checks the email: two creates with the same body
  give two users (`Server.CreateAllowsDuplicateEmail`).
- The create body may set `paymentStatus` itself: a user created as
  `completed` downloads the template with no receipt and no verification
  (`Server.CreateCompletedDownloads`).

## Model

| member | source | states |
|---|---|---|
| `JsText.TrimStart` | frontend/src/components/ChatBot.js:10 | the result is a suffix of the input, everything cut off is white space, and the result does not start with white space |
| `JsText.TrimEnd` | frontend/src/components/ChatBot.js:10 | the result is a prefix of the input, everything cut off is white space, and the result does not end with white space |
| `JsText.Trim` | frontend/src/components/ChatBot.js:10 | the result is a slice of the input with only white space on either side of it, and it neither starts nor ends with white space |
| `JsText.TrimEmptyIffBlank` | frontend/src/components/ChatBot.js:10 | `trim()` gives the empty string exactly when every character of the input is white space |
| `Server.FindById` | server/server.js:57-60 | a lookup finds the user exactly when the id is well formed and stored; a missing id finds nothing; a malformed id is a cast failure |
| `Server.NewUser` | server/server.js:17-24 | a new document takes the body's fields as given; the status is `pending` when the body omits it and the body's value when it supplies one |
| `Server.CreateUser` | server/server.js:43-51 | creation always succeeds, under an id no existing user has; it adds exactly that user and leaves every existing user unchanged |
| `Server.UploadReceipt` | server/server.js:54-71 | unknown id: 404 and no change; malformed id: 500 with the cast message and no change; known id without a file: 500 and no change; known id with a file: the receipt path is stored, the status becomes `pending_verification` whatever it was, and no other field and no other user changes |
| `Server.VerifyPayment` | server/server.js:74-89 | unknown id: 404 and no change; malformed id: 500 and no change; any known id, with no check on the caller: the status becomes `completed` and no other field and no other user changes |
| `Server.Download` | server/server.js:92-114 | unknown id: 404; malformed id: 500; a known user gets "payment required" exactly when the status is not `completed`, "template not found" exactly when it is completed and the template is missing, and otherwise the file `cv_templates/<cvModel>.docx` under the name `<name>_CV.docx` |
| `Server.Handle` | server/server.js:43-119 | every request keeps the store's id invariant, no request removes a user, every error reply and every GET leaves the store unchanged, and only a creation, an accepted receipt or a verification changes it |
| `Server.Serve` | server/server.js:43-119 | serving any sequence of requests in order keeps the store's id invariant |
| `Server.ServeNeverRemovesUsers` | server/server.js:43-114 | over any sequence of requests, every stored user stays stored |
| `Server.DownloadsAreReadOnly` | server/server.js:92-114 | any sequence of download requests leaves the store unchanged |
| `Server.CreateAllowsDuplicateEmail` | server/server.js:43-47 | two creates with the same body give two distinct users that both hold the same email |
| `Server.VerifyIdempotent` | server/server.js:74-89 | verifying twice leaves the same store and the same reply as verifying once, for every kind of id |
| `Server.ReceiptRevokesDownload` | server/server.js:63-109 | a user whose payment is completed can download when the template exists, and after a receipt upload gets "payment required" |
| `Server.VerifyGrantsDownload` | server/server.js:82-107 | after verification a known user never gets "payment required", and gets the file exactly when their template exists, under the name `<name>_CV.docx` |
| `Server.PurchaseLifecycle` | server/server.js:22-109 | a user created without a status is `pending` and cannot download, still cannot after a receipt upload, and after verification downloads `cv_templates/<cvModel>.docx` |
| `Server.CreateCompletedDownloads` | server/server.js:43-109 | a user created with status `completed` gets the template file straight away when it exists |
| `CvBuilder.CvModelFor` | frontend/src/components/CVBuilder.js:18-20 | the CV model is `junior` exactly for the experience value `junior`, and `senior` for every other value, the empty one included |
| `CvBuilder.HandleChange` | frontend/src/components/CVBuilder.js:16-21 | the named field takes the value, every other field keeps its value, the step does not change, and the CV model follows only a change of the experience field |
| `CvBuilder.HandleSubmit` | frontend/src/components/CVBuilder.js:23-64 | step 1 goes to step 2 with no outside call; step 2 goes to step 3 exactly when the card library and element are loaded, the payment method is created and the charge succeeds, and stays at 2 otherwise; step 3 changes nothing; a step-2 submit before the card library is ready makes no call, and otherwise makes exactly one payment-method creation, billed to the form's name and email, followed by exactly one charge when that method was created and none otherwise; the charge carries the method's id and always 1000 cents; the form and CV model never change |
| `CvBuilder.InitialValid` | frontend/src/components/CVBuilder.js:6-12 | the wizard opens on step 1 with exactly the name, email and experience fields, all empty, and an empty CV model |
| `CvBuilder.StepMonotone` | frontend/src/components/CVBuilder.js:16-64 | any one event keeps the step in 1..3 and never lowers it |
| `CvBuilder.RunMonotone` | frontend/src/components/CVBuilder.js:16-64 | over any run of events the step stays in 1..3 and never decreases |
| `CvBuilder.ReachingStep3NeedsPayment` | frontend/src/components/CVBuilder.js:57-58 | a run that ends at step 3 from an earlier step contains a submit whose payment succeeded |
| `CvBuilder.FromInitial` | frontend/src/components/CVBuilder.js:6-64 | from the opening state every run stays in 1..3, and reaching step 3 takes a submit whose payment succeeded |
| `CvBuilder.ChangesKeepStepAndFields` | frontend/src/components/CVBuilder.js:16-21 | field edits alone never move the wizard and never remove a field |
| `ChatBot.HandleInput` | frontend/src/components/ChatBot.js:41 | typing replaces the input and leaves the messages and scheduled replies alone |
| `ChatBot.HandleSubmit` | frontend/src/components/ChatBot.js:8-19 | the chat is unchanged exactly when the input is blank; otherwise one user message holding the untrimmed input is appended after the old messages, the input becomes empty and one bot reply is scheduled |
| `ChatBot.BotReply` | frontend/src/components/ChatBot.js:16-18 | a scheduled reply appends one bot message with the canned text after all earlier messages, and leaves the input alone |
| `ChatBot.StepBalanced` | frontend/src/components/ChatBot.js:8-19 | each event keeps bot messages plus scheduled replies equal to user messages |
| `ChatBot.RunBalancedAndGrowing` | frontend/src/components/ChatBot.js:8-41 | over any feasible run the bot never has more messages than the user, the list never shrinks, and earlier messages are never rewritten |
| `ChatBot.FromInitial` | frontend/src/components/ChatBot.js:5-19 | from the empty widget every feasible run keeps user messages equal to bot messages plus scheduled replies |

## Left out

- Persistence failures: the document store's connection, `save` errors and
  any other thrown error that the handlers' `catch` turns into a 500 reply
  are not modelled, except the cast failure of a malformed id and the
  missing upload file, which are.
- Requests the error middleware answers with a 500 "Something broke!"
  before any handler runs, such as a body that is not valid JSON or an
  upload under an unexpected field name, are not modelled: no `Request`
  expresses them.
- Server.FindById: a user id that arrives as a JSON object (a query
  operator such as `{"$ne": null}`) is not modelled. The lookup casts such
  an object into a query filter, so it can find an arbitrary stored user
  without naming its id, and the open verification route would then mark
  that user `completed`; the model only takes an absent id, a string that
  is not a well-formed id, or a well-formed id.
- Server.CreateUser: a create body that supplies its own `_id` is not
  modelled. An `_id` already in use makes the save fail with a 500, and a
  fresh one stores the user under the client's id, where the model always
  uses `Store.nextId`.
- The id generator is a counter (`Store.nextId`), standing in for the
  store's unique generated ids. The exact cast-error and TypeError message
  texts follow the current library and engine wording.
- The upload's disk storage: the receipt path is a parameter (`None` when no
  file came with the request); the `uploads/receipts/<time>_<name>` naming
  is not modelled because it depends on the clock.
- `Server.Download`: the path is `cv_templates/<cvModel>.docx` relative to
  the server directory, without the directory-joining library's
  normalisation of `..` segments; template existence is a set of CV-model
  names rather than a file-system check, and sending the file is not
  modelled.
- Type coercion of non-string JSON values by the schema, and a body that
  sets a field to `null`, are not modelled: body fields are either strings
  or absent.
- The wizard's card library and charge endpoint: only their answers are
  modelled (`PaymentEnv`); the card data, the request headers and any
  thrown network error (which leaves the wizard where it was, as a failed
  charge does) are outside the model.
- The step-3 download link (`/api/download-cv?model=…`) is rendering only;
  it names a route the back end does not define.
- The chat's one-second timer is the event `ChatBot.Event.Reply`, handled
  by `ChatBot.BotReply`, which can fire only while a reply is scheduled;
  ordering in time is not modelled.
- CvBuilder.HandleSubmit: a submit is one atomic step over the latest
  state. In the code the step-2 submit awaits twice while the step stays 2
  and the pay button stays enabled, so a second click during those awaits
  creates a second payment method and posts a second 1000-cent charge; the
  model does not show that interleaving.
- CvBuilder.HandleSubmit: the browser's own form validation is not
  modelled. The step-1 fields are required and the email field is an email
  input, so the browser does not run the submit handler while a field is
  empty or the email is malformed; in the model a step-1 submit always
  moves to step 2, even with an empty form.
- ChatBot.HandleSubmit: a submit is one atomic step over the latest state.
  In the code the submit builds the new list from the messages of the last
  render while the timer uses a functional update, so a submit that lands
  after a reply fires but before the next render can drop that reply; the
  model does not show that interleaving.
- The chat-bot command handler (`/start`, `/sendcv`, `/verify`, the admin
  allow-list and the question store) is outside this model.
- All rendering and styling, the landing page, particle background, blog,
  services, success stories, header, footer, hero, routing, the job search
  (a hard-coded list) and the contact form (the same field-update pattern
  as the wizard) are not part of this model.

=== FILE: chatbot.dfy ===
/** The chat widget: a list of messages, the text being typed, and the bot
    replies that a submit has scheduled but that have not yet arrived.
 */
module ChatBot {
  import opened JsText

  datatype Sender = User | Bot

  datatype Message = Message(text: string, sender: Sender)

  /** `pendingReplies` counts the delayed bot replies scheduled by accepted
      submits that have not yet been appended. */
  datatype Chat = Chat(messages: seq<Message>, input: string, pendingReplies: nat)

  const Initial := Chat([], "", 0)

  /** The bot's one canned answer. */
  const BotReplyText := "Thank you for your message. How can I assist you today?"

  /** Typing replaces the input text and touches nothing else. */
  function HandleInput(c: Chat, text: string): (c': Chat)
    ensures c'.input == text
    ensures c'.messages == c.messages && c'.pendingReplies == c.pendingReplies
  {
    c.(input := text)
  }

  /** The form's submit handler. Input that trims to nothing is ignored;
      otherwise the input, untrimmed, is appended as one user message, the
      input is cleared and one bot reply is scheduled. */
  function HandleSubmit(c: Chat): (c': Chat)
    ensures c' == c <==> IsBlank(c.input)
    ensures !IsBlank(c.input) ==>
              && |c'.messages| == |c.messages| + 1
              && c'.messages[..|c.messages|] == c.messages
              && c'.messages[|c.messages|] == Message(c.input, User)
              && c'.input == ""
              && c'.pendingReplies == c.pendingReplies + 1
  {
    TrimEmptyIffBlank(c.input);
    if Trim(c.input) == "" then c
    else Chat(c.messages + [Message(c.input, User)], "", c.pendingReplies + 1)
  }

  /** A scheduled reply arrives: the bot's answer is appended after every
      earlier message. */
  function BotReply(c: Chat): (c': Chat)
    requires c.pendingReplies > 0
    ensures |c'.messages| == |c.messages| + 1
    ensures c'.messages[..|c.messages|] == c.messages
    ensures c'.messages[|c.messages|] == Message(BotReplyText, Bot)
    ensures c'.input == c.input && c'.pendingReplies == c.pendingReplies - 1
  {
    Chat(c.messages + [Message(BotReplyText, Bot)], c.input, c.pendingReplies - 1)
  }

  /** How many messages of `msgs` `who` sent. */
  function CountFrom(msgs: seq<Message>, who: Sender): nat
    decreases |msgs|
  {
    if msgs == [] then 0
    else CountFrom(msgs[..|msgs| - 1], who) + (if msgs[|msgs| - 1].sender == who then 1 else 0)
  }

  /** Every user message is matched by a bot reply that has arrived or is
      still scheduled. */
  predicate Balanced(c: Chat) {
    CountFrom(c.messages, Bot) + c.pendingReplies == CountFrom(c.messages, User)
  }

  /** The events the widget reacts to. */
  datatype Event = Input(text: string) | Submit | Reply

  /** A reply event can only fire while a reply is scheduled. */
  predicate CanFire(c: Chat, e: Event) {
    e.Reply? ==> c.pendingReplies > 0
  }

  function Step(c: Chat, e: Event): Chat
    requires CanFire(c, e)
  {
    match e
    case Input(text) => HandleInput(c, text)
    case Submit => HandleSubmit(c)
    case Reply => BotReply(c)
  }

  /** A run of events each of which can fire when it comes. */
  predicate Feasible(c: Chat, evs: seq<Event>)
    decreases |evs|
  {
    evs == [] || (CanFire(c, evs[0]) && Feasible(Step(c, evs[0]), evs[1..]))
  }

  function Run(c: Chat, evs: seq<Event>): Chat
    requires Feasible(c, evs)
    decreases |evs|
  {
    if evs == [] then c else Run(Step(c, evs[0]), evs[1..])
  }

  /** Each event keeps every user message matched by a bot reply. */
  lemma StepBalanced(c: Chat, e: Event)
    requires Balanced(c) && CanFire(c, e)
    ensures Balanced(Step(c, e))
  {
  }

  /** Over any feasible run the bot never answers more often than the user
      wrote, the history only grows, and earlier messages are never
      rewritten. */
  lemma {:induction false} RunBalancedAndGrowing(c: Chat, evs: seq<Event>)
    requires Balanced(c) && Feasible(c, evs)
    ensures Balanced(Run(c, evs))
    ensures CountFrom(Run(c, evs).messages, Bot) <= CountFrom(Run(c, evs).messages, User)
    ensures |c.messages| <= |Run(c, evs).messages|
    ensures Run(c, evs).messages[..|c.messages|] == c.messages
    decreases |evs|
  {
    if evs != [] {
      var c1 := Step(c, evs[0]);
      StepBalanced(c, evs[0]);
      RunBalancedAndGrowing(c1, evs[1..]);
      var r := Run(c1, evs[1..]);
      assert c1.messages[..|c.messages|] == c.messages;
      assert r.messages[..|c.messages|] == r.messages[..|c1.messages|][..|c.messages|];
    }
  }

  /** From the empty widget, every feasible run keeps each user message
      matched by a bot reply, arrived or scheduled. */
  lemma FromInitial(evs: seq<Event>)
    requires Feasible(Initial, evs)
    ensures Balanced(Run(Initial, evs))
    ensures CountFrom(Run(Initial, evs).messages, Bot) <= CountFrom(Run(Initial, evs).messages, User)
  {
    RunBalancedAndGrowing(Initial, evs);
  }
}

=== FILE: cvbuilder.dfy ===
/** The three-step CV purchase wizard: step 1 collects name, email and
    experience, step 2 takes the card payment, step 3 offers the download.
    The card library and the charge endpoint are outside the model; their
    answers arrive as a `PaymentEnv`.
 */
module CvBuilder {
  import opened JsText

  /** The form state: field name to value, updated with a computed key. */
  type Form = map<string, string>

  datatype Wizard = Wizard(step: int, form: Form, cvModel: string) {
    predicate Valid() {
      1 <= step <= 3
    }
  }

  const InitialForm: Form := map["name" := "", "email" := "", "experience" := ""]
  const Initial := Wizard(1, InitialForm, "")

  /** The charge amount the payment step posts, in cents ($10). */
  const ChargeAmount := 1000

  /** The outcome of creating a card payment method. */
  datatype MethodResult = MethodCreated(id: string) | MethodError(message: string)

  /** What the outside world answers during a step-2 submit: whether the card
      library and its card element are loaded, what payment-method creation
      returned, and whether the charge endpoint reported success. */
  datatype PaymentEnv = PaymentEnv(
    stripeReady: bool,
    elementsReady: bool,
    paymentMethod: MethodResult,
    chargeSucceeded: bool)

  /** The payment step succeeds with these answers. */
  predicate PaymentSucceeds(env: PaymentEnv) {
    env.stripeReady && env.elementsReady && env.paymentMethod.MethodCreated? && env.chargeSucceeded
  }

  /** A call the wizard makes to the outside world. */
  datatype Call =
    | CreatePaymentMethod(billingName: Option<string>, billingEmail: Option<string>)
    | Charge(paymentMethodId: string, amount: int)

  datatype SubmitResult = SubmitResult(wizard: Wizard, calls: seq<Call>)

  /** The CV model an experience choice selects: "junior" for exactly that
      value, "senior" for everything else, the empty choice included. */
  function CvModelFor(experience: string): (m: string)
    ensures m == "junior" <==> experience == "junior"
    ensures m == "junior" || m == "senior"
  {
    if experience == "junior" then "junior" else "senior"
  }

  function FieldValue(form: Form, name: string): Option<string> {
    if name in form then Some(form[name]) else None
  }

  /** A change event on the input called `name`: that field takes `value`,
      every other field keeps its value, and the CV model follows the
      experience field only. */
  function HandleChange(w: Wizard, name: string, value: string): (w': Wizard)
    ensures w'.step == w.step
    ensures w'.form.Keys == w.form.Keys + {name}
    ensures w'.form[name] == value
    ensures forall k :: k in w.form && k != name ==> w'.form[k] == w.form[k]
    ensures name == "experience" ==> (w'.cvModel == "junior" <==> value == "junior")
    ensures name == "experience" ==> (w'.cvModel == "junior" || w'.cvModel == "senior")
    ensures name != "experience" ==> w'.cvModel == w.cvModel
  {
    var form := w.form[name := value];
    if name == "experience" then Wizard(w.step, form, CvModelFor(value))
    else Wizard(w.step, form, w.cvModel)
  }

  /** The form's submit handler. Step 1 moves on to step 2 with no payment
      interaction. Step 2 does nothing until the card library is loaded,
      then creates a payment method from the form's name and email, charges
      it 1000 cents, and moves to step 3 only on a successful charge. Step 3
      has no form, so a submit there changes nothing. */
  function HandleSubmit(w: Wizard, env: PaymentEnv): (r: SubmitResult)
    ensures r.wizard.form == w.form && r.wizard.cvModel == w.cvModel
    ensures w.step == 1 ==> r.wizard.step == 2 && r.calls == []
    ensures w.step == 2 ==>
              (r.wizard.step == 3 <==> PaymentSucceeds(env))
              && (r.wizard.step == 2 <==> !PaymentSucceeds(env))
    ensures w.step != 1 && w.step != 2 ==> r == SubmitResult(w, [])
    ensures forall i :: 0 <= i < |r.calls| && r.calls[i].Charge? ==>
              r.calls[i].amount == ChargeAmount
    ensures forall i :: 0 <= i < |r.calls| && r.calls[i].Charge? ==>
              env.paymentMethod.MethodCreated? && r.calls[i].paymentMethodId == env.paymentMethod.id
    ensures w.step == 2 && !(env.stripeReady && env.elementsReady) ==> r.calls == []
    ensures w.step == 2 && env.stripeReady && env.elementsReady ==>
              |r.calls| >= 1
              && r.calls[0] == CreatePaymentMethod(FieldValue(w.form, "name"), FieldValue(w.form, "email"))
    ensures w.step == 2 && env.stripeReady && env.elementsReady ==>
              |r.calls| == (if env.paymentMethod.MethodCreated? then 2 else 1)
    ensures (exists i :: 0 <= i < |r.calls| && r.calls[i].Charge?) <==>
              w.step == 2 && env.stripeReady && env.elementsReady && env.paymentMethod.MethodCreated?
  {
    if w.step == 1 then
      SubmitResult(w.(step := 2), [])
    else if w.step == 2 then
      if !env.stripeReady || !env.elementsReady then
        SubmitResult(w, [])
      else
        var create := CreatePaymentMethod(FieldValue(w.form, "name"), FieldValue(w.form, "email"));
        match env.paymentMethod
        case MethodError(_) => SubmitResult(w, [create])
        case MethodCreated(id) =>
          var calls := [create, Charge(id, ChargeAmount)];
          assert calls[1].Charge?;
          if env.chargeSucceeded then SubmitResult(w.(step := 3), calls)
          else SubmitResult(w, calls)
    else
      SubmitResult(w, [])
  }

  /** The events the wizard reacts to. */
  datatype Event = Change(name: string, value: string) | Submit(env: PaymentEnv)

  function Step(w: Wizard, e: Event): Wizard {
    match e
    case Change(name, value) => HandleChange(w, name, value)
    case Submit(env) => HandleSubmit(w, env).wizard
  }

  /** The wizard after the events `evs`, in order. */
  function Run(w: Wizard, evs: seq<Event>): Wizard
    decreases |evs|
  {
    if evs == [] then w else Run(Step(w, evs[0]), evs[1..])
  }

  /** The wizard opens on step 1 with the three fields empty. */
  lemma InitialValid()
    ensures Initial.Valid() && Initial.step == 1
    ensures Initial.form.Keys == {"name", "email", "experience"}
    ensures forall k :: k in Initial.form ==> Initial.form[k] == ""
    ensures Initial.cvModel == ""
  {
  }

  /** A single event keeps the step within 1..3 and never moves it back. */
  lemma StepMonotone(w: Wizard, e: Event)
    requires w.Valid()
    ensures Step(w, e).Valid() && Step(w, e).step >= w.step
  {
  }

  /** Over any run of events the step stays within 1..3 and never decreases. */
  lemma {:induction false} RunMonotone(w: Wizard, evs: seq<Event>)
    requires w.Valid()
    ensures Run(w, evs).Valid() && Run(w, evs).step >= w.step
    decreases |evs|
  {
    if evs != [] {
      StepMonotone(w, evs[0]);
      RunMonotone(Step(w, evs[0]), evs[1..]);
    }
  }

  /** The thank-you step is reached only through a submit whose payment
      succeeded. */
  lemma {:induction false} ReachingStep3NeedsPayment(w: Wizard, evs: seq<Event>)
    requires w.Valid() && w.step < 3
    requires Run(w, evs).step == 3
    ensures exists i :: 0 <= i < |evs| && evs[i].Submit? && PaymentSucceeds(evs[i].env)
    decreases |evs|
  {
    if evs == [] {
      assert false;
    } else {
      var w1 := Step(w, evs[0]);
      if w1.step == 3 {
        assert evs[0].Submit? && PaymentSucceeds(evs[0].env);
      } else {
        StepMonotone(w, evs[0]);
        ReachingStep3NeedsPayment(w1, evs[1..]);
        var i :| 0 <= i < |evs[1..]| && evs[1..][i].Submit? && PaymentSucceeds(evs[1..][i].env);
        assert evs[i + 1] == evs[1..][i];
      }
    }
  }

  /** From the opening state, every run stays within 1..3, and reaching the
      thank-you step takes a submit whose payment succeeded. */
  lemma FromInitial(evs: seq<Event>)
    ensures Run(Initial, evs).Valid()
    ensures Run(Initial, evs).step == 3 ==>
              exists i :: 0 <= i < |evs| && evs[i].Submit? && PaymentSucceeds(evs[i].env)
  {
    RunMonotone(Initial, evs);
    if Run(Initial, evs).step == 3 {
      ReachingStep3NeedsPayment(Initial, evs);
    }
  }

  /** Field edits never move the wizard and never drop a field. */
  lemma {:induction false} ChangesKeepStepAndFields(w: Wizard, evs: seq<Event>)
    requires forall i :: 0 <= i < |evs| ==> evs[i].Change?
    ensures Run(w, evs).step == w.step
    ensures w.form.Keys <= Run(w, evs).form.Keys
    decreases |evs|
  {
    if evs != [] {
      ChangesKeepStepAndFields(Step(w, evs[0]), evs[1..]);
    }
  }
}

=== FILE: jstext.dfy ===
/** JavaScript value semantics the three components rely on: optional
    (possibly `undefined`) string fields, how a template literal prints them,
    and `String.prototype.trim`.
 */
module JsText {

  /** A JavaScript value that is either a string or `undefined`. */
  datatype Option<+T> = None | Some(value: T)

  /** How a template literal `${x}` prints an optional string: `undefined`
      prints as the word "undefined". */
  function Stringify(x: Option<string>): string {
    match x
    case Some(s) => s
    case None => "undefined"
  }

  /** The characters `String.prototype.trim` removes: the ECMAScript
      WhiteSpace set (tab, vertical tab, form feed, space, no-break space,
      byte-order mark and the Unicode space separators) and the
      LineTerminator set (line feed, carriage return, line and paragraph
      separators). */
  predicate IsSpace(c: char) {
    || c == '\t' || c == '\n' || c == '\U{000B}' || c == '\U{000C}' || c == '\r'
    || c == ' ' || c == '\U{00A0}' || c == '\U{1680}'
    || ('\U{2000}' <= c <= '\U{200A}')
    || c == '\U{2028}' || c == '\U{2029}' || c == '\U{202F}' || c == '\U{205F}'
    || c == '\U{3000}' || c == '\U{FEFF}'
  }

  /** Every character of `s` is white space (the empty string included). */
  predicate IsBlank(s: string) {
    forall i :: 0 <= i < |s| ==> IsSpace(s[i])
  }

  /** `s` with its leading white space removed. */
  function TrimStart(s: string): (r: string)
    ensures |r| <= |s| && r == s[|s| - |r|..]
    ensures IsBlank(s[..|s| - |r|])
    ensures r == [] || !IsSpace(r[0])
  {
    if |s| > 0 && IsSpace(s[0]) then
      var r := TrimStart(s[1..]);
      assert s[..|s| - |r|] == [s[0]] + s[1..][..|s| - 1 - |r|];
      r
    else
      s
  }

  /** `s` with its trailing white space removed. */
  function TrimEnd(s: string): (r: string)
    ensures |r| <= |s| && r == s[..|r|]
    ensures IsBlank(s[|r|..])
    ensures r == [] || !IsSpace(r[|r| - 1])
  {
    if |s| > 0 && IsSpace(s[|s| - 1]) then
      var r := TrimEnd(s[..|s| - 1]);
      assert s[|r|..] == s[..|s| - 1][|r|..] + [s[|s| - 1]];
      r
    else
      s
  }

  /** `s.trim()`: the longest slice of `s` that neither starts nor ends with
      white space, once only white space is cut away on either side. */
  function Trim(s: string): (r: string)
    ensures exists i :: 0 <= i <= |s| - |r| && r == s[i..i + |r|]
                        && IsBlank(s[..i]) && IsBlank(s[i + |r|..])
    ensures r == [] || (!IsSpace(r[0]) && !IsSpace(r[|r| - 1]))
  {
    var t := TrimStart(s);
    var r := TrimEnd(t);
    TrimmedSlice(s, t, r);
    r
  }

  /** Cutting a blank prefix and then a blank suffix leaves a slice with
      only white space on either side of it. */
  lemma TrimmedSlice(s: string, t: string, r: string)
    requires |t| <= |s| && t == s[|s| - |t|..] && IsBlank(s[..|s| - |t|])
    requires |r| <= |t| && r == t[..|r|] && IsBlank(t[|r|..])
    ensures exists i :: 0 <= i <= |s| - |r| && r == s[i..i + |r|]
                        && IsBlank(s[..i]) && IsBlank(s[i + |r|..])
  {
    var i := |s| - |t|;
    assert r == s[i..i + |r|];
    assert s[i + |r|..] == t[|r|..];
  }

  /** `s.trim() === ''` holds exactly for the blank strings. */
  lemma TrimEmptyIffBlank(s: string)
    ensures Trim(s) == [] <==> IsBlank(s)
  {
  }
}

=== FILE: server.dfy ===
/** The REST back end: a store of user records keyed by id, and the four
    handlers that create a user, attach a payment receipt, mark a payment
    verified and serve the purchased CV template.
 */
module Server {
  import opened JsText

  type UserId = nat

  /** The payment-status strings the handlers write or test. */
  const Pending := "pending"
  const PendingVerification := "pending_verification"
  const Completed := "completed"

  /** A stored user document. Every schema field except `paymentStatus` is
      absent until some request sets it; `paymentStatus` has a default. */
  datatype User = User(
    name: Option<string>,
    email: Option<string>,
    experience: Option<string>,
    cvModel: Option<string>,
    paymentStatus: string,
    paymentReceipt: Option<string>)

  /** The JSON body of a create request: any schema field may be omitted,
      and the client may supply every one of them, the status included. */
  datatype UserBody = UserBody(
    name: Option<string>,
    email: Option<string>,
    experience: Option<string>,
    cvModel: Option<string>,
    paymentStatus: Option<string>,
    paymentReceipt: Option<string>)

  /** The user collection. `nextId` stands for the id generator: every id it
      has handed out is below it, so a new id never names an existing user. */
  datatype Store = Store(users: map<UserId, User>, nextId: nat) {
    predicate Valid() {
      forall id :: id in users ==> id < nextId
    }
  }

  /** A user id as the handlers receive it: absent from the request body,
      a string that is not a well-formed id, or a well-formed id. An id sent
      as a JSON object, which the lookup would read as a query filter, is
      outside the model. */
  datatype IdParam = Missing | Malformed(raw: string) | Id(id: UserId)

  /** What a find-by-id yields: the user, no user, or a cast failure that
      the handler's `catch` turns into a 500 reply. */
  datatype Lookup = Found(id: UserId, user: User) | NoUser | CastError(message: string)

  /** The reply a handler sends. */
  datatype Response =
    | Created(id: UserId, user: User)
    | ReceiptUploaded(receiptPath: string)
    | PaymentVerified
    | DownloadFile(path: string, downloadName: string)
    | Hello
    | UserNotFound
    | TemplateNotFound
    | PaymentRequired
    | InternalError(message: string)
  {
    /** The HTTP status code sent with this reply. */
    function StatusCode(): int {
      match this
      case Created(_, _) => 201
      case ReceiptUploaded(_) => 200
      case PaymentVerified => 200
      case DownloadFile(_, _) => 200
      case Hello => 200
      case UserNotFound => 404
      case TemplateNotFound => 404
      case PaymentRequired => 403
      case InternalError(_) => 500
    }

    predicate IsError() {
      StatusCode() >= 400
    }
  }

  /** A handler's reply together with the store it leaves behind. */
  datatype Reply = Reply(response: Response, store: Store)

  /** The requests the back end serves. None of them carries a credential:
      the payment-verification route is open to every caller. */
  datatype Request =
    | PostUser(body: UserBody)
    | PostUploadReceipt(userId: IdParam, receipt: Option<string>)
    | PostVerifyPayment(userId: IdParam)
    | GetDownload(userId: IdParam)
    | GetRoot

  /** The message a malformed id produces when it is cast to an id. */
  function CastErrorMessage(raw: string): string {
    "Cast to ObjectId failed for value \"" + raw + "\" (type string) at path \"_id\" for model \"User\""
  }

  /** The message of the TypeError raised when an upload request carries no
      file and the handler reads the path of the missing file. */
  const MissingFileMessage := "Cannot read properties of undefined (reading 'path')"

  const VerifyErrorMessage := "Error verifying payment"
  const DownloadErrorMessage := "Error fetching user data"

  /** Find-by-id: a missing id finds nothing, a malformed one fails. */
  function FindById(store: Store, p: IdParam): (r: Lookup)
    ensures r.Found? <==> p.Id? && p.id in store.users
    ensures r.Found? ==> r.id == p.id && r.user == store.users[p.id]
    ensures r.CastError? <==> p.Malformed?
  {
    match p
    case Missing => NoUser
    case Malformed(raw) => CastError(CastErrorMessage(raw))
    case Id(id) => if id in store.users then Found(id, store.users[id]) else NoUser
  }

  /** The document built from a create body: the body's fields as given,
      and status "pending" when the body has none. */
  function NewUser(body: UserBody): (u: User)
    ensures u.name == body.name && u.email == body.email
    ensures u.experience == body.experience && u.cvModel == body.cvModel
    ensures u.paymentReceipt == body.paymentReceipt
    ensures body.paymentStatus.None? ==> u.paymentStatus == Pending
    ensures body.paymentStatus.Some? ==> u.paymentStatus == body.paymentStatus.value
  {
    User(body.name, body.email, body.experience, body.cvModel,
         match body.paymentStatus case Some(s) => s case None => Pending,
         body.paymentReceipt)
  }

  /** POST /api/user: always stores a new document under a fresh id, with
      no check on the email or any other field. */
  function CreateUser(store: Store, body: UserBody): (r: Reply)
    requires store.Valid()
    ensures r.store.Valid()
    ensures r.response.Created? && r.response.id !in store.users
    ensures r.store.users.Keys == store.users.Keys + {r.response.id}
    ensures r.store.users[r.response.id] == r.response.user == NewUser(body)
    ensures forall id :: id in store.users ==> r.store.users[id] == store.users[id]
  {
    var id := store.nextId;
    var u := NewUser(body);
    Reply(Created(id, u), Store(store.users[id := u], store.nextId + 1))
  }

  /** POST /api/upload-receipt: for a known user, records the uploaded
      file's path and sets the status to "pending_verification", whatever the
      status was before. */
  function UploadReceipt(store: Store, userId: IdParam, receipt: Option<string>): (r: Reply)
    ensures FindById(store, userId).NoUser? ==> r == Reply(UserNotFound, store)
    ensures userId.Malformed? ==> r == Reply(InternalError(CastErrorMessage(userId.raw)), store)
    ensures FindById(store, userId).Found? && receipt.None? ==>
              r == Reply(InternalError(MissingFileMessage), store)
    ensures FindById(store, userId).Found? && receipt.Some? ==> r.store.users.Keys == store.users.Keys
    ensures FindById(store, userId).Found? && receipt.Some? ==>
              var id := userId.id;
              var old_u := store.users[id];
              var new_u := r.store.users[id];
              && r.response == ReceiptUploaded(receipt.value)
              && r.store.nextId == store.nextId
              && new_u.paymentReceipt == receipt
              && new_u.paymentStatus == PendingVerification
              && new_u.name == old_u.name && new_u.email == old_u.email
              && new_u.experience == old_u.experience && new_u.cvModel == old_u.cvModel
              && (forall other :: other in store.users && other != id ==>
                    r.store.users[other] == store.users[other])
  {
    match FindById(store, userId)
    case NoUser => Reply(UserNotFound, store)
    case CastError(m) => Reply(InternalError(m), store)
    case Found(id, u) =>
      match receipt
      case None => Reply(InternalError(MissingFileMessage), store)
      case Some(path) =>
        var u' := u.(paymentReceipt := Some(path), paymentStatus := PendingVerification);
        Reply(ReceiptUploaded(path), store.(users := store.users[id := u']))
  }

  /** POST /api/verify-payment: for a known user, sets the status to
      "completed". It asks nothing of the caller beyond the user id. */
  function VerifyPayment(store: Store, userId: IdParam): (r: Reply)
    ensures FindById(store, userId).NoUser? ==> r == Reply(UserNotFound, store)
    ensures userId.Malformed? ==> r == Reply(InternalError(VerifyErrorMessage), store)
    ensures FindById(store, userId).Found? ==> r.store.users.Keys == store.users.Keys
    ensures FindById(store, userId).Found? ==>
              var id := userId.id;
              var old_u := store.users[id];
              var new_u := r.store.users[id];
              && r.response == PaymentVerified
              && r.store.nextId == store.nextId
              && new_u.paymentStatus == Completed
              && new_u.name == old_u.name && new_u.email == old_u.email
              && new_u.experience == old_u.experience && new_u.cvModel == old_u.cvModel
              && new_u.paymentReceipt == old_u.paymentReceipt
              && (forall other :: other in store.users && other != id ==>
                    r.store.users[other] == store.users[other])
  {
    match FindById(store, userId)
    case NoUser => Reply(UserNotFound, store)
    case CastError(_) => Reply(InternalError(VerifyErrorMessage), store)
    case Found(id, u) =>
      Reply(PaymentVerified, store.(users := store.users[id := u.(paymentStatus := Completed)]))
  }

  /** The template file served for a CV model, relative to the server's
      directory. */
  function TemplatePath(cvModel: Option<string>): string {
    "cv_templates/" + Stringify(cvModel) + ".docx"
  }

  /** GET /api/download/:userId: a decision that changes nothing. A user
      whose payment is not completed gets "payment required" whether or not
      the template exists; a paid user gets the template of their CV model
      under the name "<name>_CV.docx", or "template not found". `templates`
      holds the CV models whose template file exists. */
  function Download(store: Store, templates: set<string>, userId: IdParam): (r: Response)
    ensures FindById(store, userId).NoUser? ==> r == UserNotFound
    ensures userId.Malformed? ==> r == InternalError(DownloadErrorMessage)
    ensures FindById(store, userId).Found? ==>
              var u := store.users[userId.id];
              && (r == PaymentRequired <==> u.paymentStatus != Completed)
              && (r == TemplateNotFound <==>
                    u.paymentStatus == Completed && Stringify(u.cvModel) !in templates)
              && (r.DownloadFile? <==>
                    u.paymentStatus == Completed && Stringify(u.cvModel) in templates)
              && (r.DownloadFile? ==>
                    && r.path == "cv_templates/" + Stringify(u.cvModel) + ".docx"
                    && r.downloadName == Stringify(u.name) + "_CV.docx")
  {
    match FindById(store, userId)
    case NoUser => UserNotFound
    case CastError(_) => InternalError(DownloadErrorMessage)
    case Found(_, u) =>
      if u.paymentStatus == Completed then
        if Stringify(u.cvModel) in templates then
          DownloadFile(TemplatePath(u.cvModel), Stringify(u.name) + "_CV.docx")
        else
          TemplateNotFound
      else
        PaymentRequired
  }

  /** Routes one request to its handler. Only creation, an accepted receipt
      and a verification change the store; every error reply and every GET
      leaves it as it was; no handler removes a user. */
  function Handle(store: Store, templates: set<string>, req: Request): (r: Reply)
    requires store.Valid()
    ensures r.store.Valid()
    ensures store.users.Keys <= r.store.users.Keys
    ensures r.response.IsError() ==> r.store == store
    ensures req.GetDownload? || req.GetRoot? ==> r.store == store
    ensures r.store != store ==>
              r.response.Created? || r.response.ReceiptUploaded? || r.response.PaymentVerified?
  {
    match req
    case PostUser(body) => CreateUser(store, body)
    case PostUploadReceipt(userId, receipt) => UploadReceipt(store, userId, receipt)
    case PostVerifyPayment(userId) => VerifyPayment(store, userId)
    case GetDownload(userId) => Reply(Download(store, templates, userId), store)
    case GetRoot => Reply(Hello, store)
  }

  /** The store after serving `reqs` in order. */
  function Serve(store: Store, templates: set<string>, reqs: seq<Request>): (s: Store)
    requires store.Valid()
    ensures s.Valid()
    decreases |reqs|
  {
    if reqs == [] then store
    else Serve(Handle(store, templates, reqs[0]).store, templates, reqs[1..])
  }

  /** Users are never removed, and a stored user keeps the id it got. */
  lemma {:induction false} ServeNeverRemovesUsers(store: Store, templates: set<string>, reqs: seq<Request>)
    requires store.Valid()
    ensures store.users.Keys <= Serve(store, templates, reqs).users.Keys
    decreases |reqs|
  {
    if reqs != [] {
      var next := Handle(store, templates, reqs[0]).store;
      ServeNeverRemovesUsers(next, templates, reqs[1..]);
    }
  }

  /** A stream of download requests never changes the store. */
  lemma {:induction false} DownloadsAreReadOnly(store: Store, templates: set<string>, reqs: seq<Request>)
    requires store.Valid()
    requires forall i :: 0 <= i < |reqs| ==> reqs[i].GetDownload?
    ensures Serve(store, templates, reqs) == store
    decreases |reqs|
  {
    if reqs != [] {
      assert Handle(store, templates, reqs[0]).store == store;
      DownloadsAreReadOnly(store, templates, reqs[1..]);
    }
  }

  /** Creation does not reject a repeated email: two creates with equal
      bodies yield two distinct users that both hold that email. */
  lemma CreateAllowsDuplicateEmail(store: Store, body: UserBody)
    requires store.Valid()
    ensures var r1 := CreateUser(store, body);
            var r2 := CreateUser(r1.store, body);
            && r1.response.id != r2.response.id
            && r1.response.id in r2.store.users && r2.response.id in r2.store.users
            && r2.store.users[r1.response.id].email == body.email
            && r2.store.users[r2.response.id].email == body.email
  {
  }

  /** Verifying a payment twice leaves the store as verifying it once, and
      the second verification still succeeds. */
  lemma VerifyIdempotent(store: Store, userId: IdParam)
    ensures var once := VerifyPayment(store, userId);
            var twice := VerifyPayment(once.store, userId);
            twice.store == once.store && twice.response == once.response
  {
  }

  /** Uploading a receipt withdraws access to the download, even from a
      user whose payment was already verified. */
  lemma ReceiptRevokesDownload(store: Store, templates: set<string>, id: UserId, path: string)
    requires id in store.users && store.users[id].paymentStatus == Completed
    ensures Download(store, templates, Id(id)).DownloadFile? <==>
              Stringify(store.users[id].cvModel) in templates
    ensures Download(UploadReceipt(store, Id(id), Some(path)).store, templates, Id(id)) == PaymentRequired
  {
  }

  /** After verification a known user can download exactly when the
      template of their CV model exists, whatever the earlier status. */
  lemma VerifyGrantsDownload(store: Store, templates: set<string>, id: UserId)
    requires id in store.users
    ensures var u := store.users[id];
            var d := Download(VerifyPayment(store, Id(id)).store, templates, Id(id));
            && d != PaymentRequired
            && (d.DownloadFile? <==> Stringify(u.cvModel) in templates)
            && (d.DownloadFile? ==> d.downloadName == Stringify(u.name) + "_CV.docx")
  {
  }

  /** The full purchase path: a user created without a status starts at
      "pending" and cannot download; after a receipt upload still cannot;
      after verification downloads the template when it exists. */
  lemma PurchaseLifecycle(store: Store, templates: set<string>, body: UserBody, path: string)
    requires store.Valid()
    requires body.paymentStatus.None?
    requires body.cvModel.Some? && body.cvModel.value in templates
    ensures var created := CreateUser(store, body);
            var id := created.response.id;
            var uploaded := UploadReceipt(created.store, Id(id), Some(path));
            var verified := VerifyPayment(uploaded.store, Id(id));
            && created.store.users[id].paymentStatus == Pending
            && Download(created.store, templates, Id(id)) == PaymentRequired
            && Download(uploaded.store, templates, Id(id)) == PaymentRequired
            && Download(verified.store, templates, Id(id))
                 == DownloadFile("cv_templates/" + body.cvModel.value + ".docx",
                                 Stringify(body.name) + "_CV.docx")
  {
  }

  /** A create body may carry the status itself: a user created as
      "completed" downloads their template at once, with no receipt and no
      verification. */
  lemma CreateCompletedDownloads(store: Store, templates: set<string>, body: UserBody)
    requires store.Valid()
    requires body.paymentStatus == Some(Completed)
    requires Stringify(body.cvModel) in templates
    ensures var created := CreateUser(store, body);
            Download(created.store, templates, Id(created.response.id))
              == DownloadFile(TemplatePath(body.cvModel), Stringify(body.name) + "_CV.docx")
  {
  }
}
